=== FILE: README.md ===
# Key-ceremony verifier: a Dafny model

This project models the decision logic of the `verify` command of a
key-ceremony repository. The command does two things. First, it audits the
device-bound signing keys a hardware key ceremony produced. Each key directory
is named after a device serial and holds a public key, a device certificate
and a key certificate. Every key must chain to a trusted root CA, and the
verified keys are collected into a registry keyed by their TUF key ID. Second,
when a repository path is given, it audits a TUF metadata repository. For each
role it reports whether the signature threshold was met, how many of the
required signatures are present, or what verification error occurred.

Every filesystem, X.509 and TUF call is replaced by a collaborator passed in as
a value. These are the key loader, the chain check, the ID derivation, file
reads, directory listings, walks, the store, the database and the signature
check. What remains is a sequential trust policy, and its contracts are proved:

- The serial is parsed with Go's `strconv.Atoi` rules.
- A walk's files are sorted into three slots by suffix, and the last file
  visited wins.
- The registry build is fail-closed: the first failure returns no map at all.
  A repeated key ID overwrites the earlier key.
- In the audit, threshold shortfalls and other verification errors are
  reported and the loop goes on. Only store, database or root-metadata setup
  failures, or a failure to fetch a role's document, abort it.
- `main` runs its phases in order, and a fatal step ends the run with exit
  status 1.

Modules, one per part of the program:

- `Wrappers`: `Option` and `Result`.
- `Ceremony`: bytes, certificates, signing keys, the error taxonomy.
- `Decimal`: `strconv.Atoi`, with `strconv.Itoa` as its inverse.
- `KeyArtifacts`: `signingKeyFromDir`, which covers serial derivation, suffix
  classification and the walk.
- `KeyIdentity`: `getKeyID` and the uncompressed P-256 point encoding it feeds
  to the ID derivation.
- `Registry`: `verifySigningKeys`.
- `MetadataAudit`: `verifyMetadata`.
- `VerifyCommand`: `file.Set`, `toCert` and `main`.

Some choices of the code are worth stating, because a reader might expect
otherwise; the model follows the code in each:

- A repeated key ID overwrites the earlier entry rather than being rejected.
- A serial may carry a `+` or `-` sign, so it need not be non-negative, and
  "+007" and "7" name the same serial.
- Missing artifact files are not detected here: the unset slots are passed as
  nil to the key loader.
- A failure to fetch one role's document aborts the whole audit rather than
  being reported and skipped.
- The key registry is passed to the audit but never consulted.

## Model

| member | source | states |
|---|---|---|
| Decimal.Atoi | cmd/verify/main.go:67-71 | accepts a directory name exactly when it is an optional sign followed by at least one decimal digit and its value fits in a signed 64-bit integer; the result is that value |
| Decimal.ScanDigits | cmd/verify/main.go:68 | the left-to-right digit scan, started from the value of the digits already read, succeeds exactly on all-digit strings and yields the numeral's value |
| Decimal.AtoiItoa | cmd/verify/main.go:68 | every 64-bit integer is parsed back from its own decimal numeral (round trip with `Itoa`) |
| Decimal.AtoiRejectsOutOfRange | cmd/verify/main.go:68-71 | the decimal numeral `Itoa(n)` of any value n outside the 64-bit range is rejected |
| Decimal.AtoiRejectsNonDigits | cmd/verify/main.go:68-71 | a name with any non-digit character after its optional leading sign is rejected |
| Decimal.AtoiRejectsEmptyOrSignOnly | cmd/verify/main.go:68-71 | the empty name and a lone sign are rejected |
| Decimal.AtoiSignsAndZeros | cmd/verify/main.go:68 | "+007" reads as 7 and "-3" as -3, so distinct directory names can denote the same serial; "abc" is rejected |
| KeyArtifacts.SuffixesExclusive | cmd/verify/main.go:81-96 | no file name ends in two of `_pubkey.pem`, `_key_cert.pem`, `_device_cert.pem` |
| KeyArtifacts.ClassifyBySuffix | cmd/verify/main.go:81-96 | the else-if chain (`Classify`) assigns a name to slot k exactly when it ends in k's suffix, and to no slot exactly when it ends in none |
| KeyArtifacts.Step | cmd/verify/main.go:76-97 | one callback invocation fails exactly on an access error or an unreadable matched file; otherwise it overwrites only the matched slot with the file's contents |
| KeyArtifacts.UnmatchedNameIgnored | cmd/verify/main.go:81-97 | a file matching no suffix leaves every slot unchanged and is not read, so even an unreadable one does not stop the walk |
| KeyArtifacts.Collect | cmd/verify/main.go:76-101 | the walk fails exactly when some event aborts, with the first such event's error; on success each slot holds the contents of the last visited file of its kind, or nil when none was visited |
| KeyArtifacts.LastVisitWins | cmd/verify/main.go:81-96 | after a successful walk, a slot equals the contents of the last visited file with its suffix, overwriting earlier ones |
| KeyArtifacts.SigningKeyFromDir | cmd/verify/main.go:65-103 | an unparsable directory name fails with an invalid-name error; otherwise walk errors propagate; it succeeds exactly when the name parses, the walk succeeds and the loader accepts the serial and the three slots, returning the loader's key, and a loader failure is reported with the serial |
| KeyArtifacts.InvalidNameIgnoresContents | cmd/verify/main.go:67-71 | for an unparsable directory name the outcome is the same failure whatever the directory contains: nothing inside is examined |
| KeyIdentity.MarshalRoundTrip | cmd/verify/main.go:57 | the uncompressed point encoding of a P-256 point decodes back to that point |
| KeyIdentity.BigEndianRoundTrip | cmd/verify/main.go:57 | a coordinate below 256^width is recovered from its fixed-width big-endian bytes |
| KeyIdentity.Marshal | cmd/verify/main.go:57 | the point encoding is 65 bytes long and starts with the uncompressed-form tag 4 |
| KeyIdentity.KeyValueOf | cmd/verify/main.go:53-58 | the TUF key value of a signing key has type and scheme `ecdsa-sha2-nistp256` and holds the 65-byte uncompressed encoding of the key's point, from which that point is decoded back |
| KeyIdentity.KeyValueDeterminesPoint | cmd/verify/main.go:53-58 | two keys with equal TUF key values have equal public points |
| KeyIdentity.GetKeyId | cmd/verify/main.go:51-63 | fails exactly when the ID derivation yields no identifier; otherwise returns the first identifier |
| KeyIdentity.KeyIdDependsOnlyOnPoint | cmd/verify/main.go:52-62 | keys with the same public point get the same ID result whatever their serials |
| Registry.VerifyEntry | cmd/verify/main.go:113-128 | one directory succeeds exactly when its key loads, passes the chain check against the root CA and yields an ID; a load failure (invalid name, walk or loader error) is returned unchanged, a chain-check failure is reported with the key's serial and the check's cause, and a key without an ID fails with the no-ID error |
| Registry.BuildRegistry | cmd/verify/main.go:111-132 | the loop fails exactly when some directory entry fails, with the first failing entry's error and no map; on success every directory's ID is in the map and each ID maps to the key of the last directory registering it; non-directories are skipped |
| Registry.VerifySigningKeys | cmd/verify/main.go:105-133 | fails with the listing error, or exactly when some directory fails, and then with the first failing directory's error and no map; on success the map is what `BuildRegistry` describes, and every registered key passed the chain check against the root CA and is filed under its own ID |
| Registry.DuplicateIdKeepsLater | cmd/verify/main.go:112-132 | in a listing where every directory loads and verifies, two directories whose keys share an ID cause no error: the build succeeds and the ID maps to the later directory's key, so the earlier directory's key, when different, is dropped |
| Registry.RegistryKeySet | cmd/verify/main.go:112-132 | a successful registry's key set is exactly the set of IDs the directories register |
| Registry.InvalidSerialAbortsBuild | cmd/verify/main.go:112-117 | any directory with an unparsable name makes the whole build fail, so no registry is returned |
| Registry.InvalidSerialAfterValidKeys | cmd/verify/main.go:112-132 | with directories "1", "2" (valid) and "abc", the build fails with the invalid-name error for "abc" and returns no registry |
| MetadataAudit.MetaFile | cmd/verify/main.go:150 | a role's document is read from the role name followed by `.json`, and the name is its prefix |
| MetadataAudit.MetaFileInjective | cmd/verify/main.go:150 | distinct roles are read from distinct files |
| MetadataAudit.Classify | cmd/verify/main.go:154-163 | success is reported as met; a threshold error as partial with the actual count from the error and the required count from the root metadata's role; any other error as a verification error |
| MetadataAudit.AuditRoles | cmd/verify/main.go:148-166 | the role loop fails exactly when some role's document cannot be fetched, after reporting exactly the roles visited before the first such one; otherwise it reports every role in visiting order, whatever the signature checks return |
| MetadataAudit.VerifyMetadata | cmd/verify/main.go:135-167 | fails exactly when the database, the root metadata or some role's document cannot be read; a setup failure returns its error with no report; a fetch failure returns the first unfetchable role's error after reporting exactly the roles visited before it; every report line belongs to a role of the root metadata; a completed audit reports each role exactly once |
| MetadataAudit.EnumerationSize | cmd/verify/main.go:148 | a repetition-free visiting order of the role map has as many entries as the map |
| MetadataAudit.AuditIgnoresKeys | cmd/verify/main.go:135-167 | the key map passed in never changes the audit's outcome |
| MetadataAudit.AuditOrderIndependent | cmd/verify/main.go:148 | whatever order the role map is iterated in, the audit fails or completes alike, and a completed audit reports the same set of lines |
| MetadataAudit.PartialThresholdScenario | cmd/verify/main.go:148-166 | roles root 3/3, targets 1/2, snapshot 1/1: the audit completes with root met, targets partial 1 of 2, snapshot met |
| VerifyCommand.SetFileFlag | cmd/verify/main.go:29-38 | the `--root` flag is accepted exactly when it is non-empty and its stat does not report non-existence; other stat errors are let through |
| VerifyCommand.ToCert | cmd/verify/main.go:40-46 | loading the root CA succeeds exactly when the file reads and parses, returning the parsed certificate; a read failure and a parse failure are each reported with their cause |
| VerifyCommand.Run | cmd/verify/main.go:169-196 | phases run as a prefix of root CA, registry, audit; the registry is built exactly when the root CA loads; the audit runs exactly when both succeed and the repository flag is non-empty; exit status is 1 exactly when one of these fatal steps failed |
| VerifyCommand.DefaultRunSkipsAudit | cmd/verify/main.go:170-173 | with the default flags (key directory `../../../ceremony/2021-05-03/keys`, empty repository) the audit never runs, and the run exits 0 exactly when the root CA loads and the registry builds |
| VerifyCommand.RootFailureStopsRun | cmd/verify/main.go:178-182 | when the root CA fails to load, the run exits 1 after that phase alone and its outcome does not depend on any later collaborator |
| VerifyCommand.RegistryFailureStopsRun | cmd/verify/main.go:184-188 | when the registry build fails, the run exits 1 without auditing and its outcome does not depend on the repository |
| VerifyCommand.AuditReportsDoNotFailRun | cmd/verify/main.go:190-195 | threshold shortfalls and per-role verification errors never make the run exit non-zero |

## Left out

- Filesystem access is given as data: the key directory listing (`ioutil.ReadDir`), each subdirectory's recursive walk (`filepath.Walk`) and every file read (`ioutil.ReadFile`, `os.Stat`). The walk's events come in the order the walk produced them; the walk's own lexical ordering and its handling of `SkipDir` are not modelled.
- Path handling (`filepath.Join`, `filepath.Base`, `filepath.Clean`) is not modelled: the serial is read from the listing entry's name, which is what `Base` of the joined path yields for names a listing returns.
- X.509 parsing and chain checks (`keys.ToCert`, `keys.ToSigningKey`, `SigningKey.Verify`) are collaborators passed in as functions. `pkg/keys` is not part of this model.
- The TUF identifier derivation (`data.Key.IDs`, canonical JSON and SHA-256) is a collaborator. The TUF key-type, scheme and algorithm constants are those of go-tuf at the time.
- The go-tuf store, database and signature verification (`tuf.FileSystemStore`, `app.CreateDb`, `app.GetRootFromStore`, `app.GetSignedMeta`, `db.VerifySignatures`) are collaborator results. `cmd/tuf/app` is not part of this model.
- The iteration order of Go's map over the root metadata's roles is unspecified. It is a parameter constrained to visit each role once. Which role's fetch error an aborted audit reports depends on that order, and the model leaves it so.
- Log text is not modelled. This covers the per-key "verified key" and "error verifying key" lines, the walk's access-error message, and the "Verifying role" header. The audit's per-role result lines are modelled as report values.
- Flag parsing itself (`flag.Parse`, usage text, the flag package's own exit status on a rejected flag) is not modelled, and `os.Exit` becomes an exit-status value.
- Decimal.Atoi: the distinction between Go's syntax error and range error is not modelled. Both are a failure, and the kind only appears in the log text. The width of `int` is taken as 64 bits.
- KeyIdentity.MarshalRoundTrip: `elliptic.Marshal` panics on a coordinate wider than 32 bytes. The encoding here truncates instead, and the round trip is stated only for points that fit, which every P-256 point does.
- KeyIdentity.Marshal: the source encodes with the key's own curve (`pub.Curve`). The model fixes P-256's 32-byte coordinates and `SigningKey` carries no curve, since every ceremony key is a P-256 key.
- `ioutil.ReadDir` returns the listing sorted by name. The model takes the listing in whatever order it is given, so its properties hold for the sorted order in particular.
- File and directory names are sequences of characters, not Go's byte strings. Suffix tests and the serial parse only look at ASCII characters, so this does not change which names are accepted.
- Errors are tagged by where they arose (`SigningKeyInvalid`, `KeyNotVerified`, and so on). The source returns the collaborator's error value itself, and the tag stands in for that value's identity.

=== FILE: ceremony.dfy ===
/** Vocabulary shared by every stage of the key-ceremony verifier: raw bytes,
    certificates, signing keys and the errors that end a run. */
module Ceremony {

  /** One octet of a file's contents. */
  type byte = b: int | 0 <= b < 256

  type Bytes = seq<byte>

  /** The text of an error reported by a collaborator (the filesystem, the X.509
      library, the TUF library); its wording is not part of the model. */
  type Cause = string

  /** A TUF key identifier, as produced by the metadata library. */
  type KeyId = string

  /** A parsed X.509 certificate; its structure is the X.509 library's business. */
  datatype Certificate = Certificate(der: Bytes)

  /** An affine point on the P-256 curve, coordinates as unbounded naturals. */
  datatype EcPoint = EcPoint(x: nat, y: nat)

  /** A device-bound signing key as loaded from one key directory: the
      device's serial, the public point, and the device and key certificates
      the loader parsed, which the chain check examines against the root CA. */
  datatype SigningKey = SigningKey(serialNumber: int, publicKey: EcPoint, deviceCert: Certificate, keyCert: Certificate)

  /** Every error the verifier can stop with. */
  datatype Error =
    | FlagNotSpecified                         // `--root` given an empty value
    | FlagPathMissing(path: string)            // `--root` names a path that does not exist
    | RootCertUnreadable(cause: Cause)         // reading the root CA file failed
    | RootCertInvalid(cause: Cause)            // the root CA file is not a certificate
    | KeyDirectoryUnreadable(cause: Cause)     // listing the key directory failed
    | InvalidKeyDirectoryName(dir: string)     // a key directory's name is not a decimal integer
    | WalkFailed(path: string, cause: Cause)   // the recursive walk reported an access error
    | ArtifactUnreadable(name: string, cause: Cause) // reading a matched artifact failed
    | SigningKeyInvalid(serial: int, cause: Cause)   // the artifacts do not form a signing key
    | KeyNotVerified(serial: int, cause: Cause)      // the key's chain does not reach the root CA
    | NoKeyId                                  // the key encoding produced no identifier
    | StoreUnavailable(cause: Cause)           // the TUF database could not be created
    | RootMetadataUnavailable(cause: Cause)    // the root metadata could not be read
    | SignedMetaUnavailable(file: string, cause: Cause) // a role's signed document could not be read
}

=== FILE: decimal.dfy ===
/** Decimal parsing with the rules of Go's `strconv.Atoi` on a 64-bit platform:
    an optional `+` or `-`, then one or more ASCII digits, and a value that fits
    in a signed 64-bit integer. Also the matching formatter `strconv.Itoa`,
    which serves as the parser's inverse. */
module Decimal {
  import opened Wrappers

  const MinInt64: int := -0x8000_0000_0000_0000
  const MaxInt64: int := 0x7fff_ffff_ffff_ffff

  predicate InInt64(v: int) {
    MinInt64 <= v <= MaxInt64
  }

  predicate IsDigit(c: char) {
    '0' <= c <= '9'
  }

  predicate AllDigits(s: string) {
    forall i :: 0 <= i < |s| ==> IsDigit(s[i])
  }

  function DigitValue(c: char): (d: nat)
    requires IsDigit(c)
    ensures d < 10
  {
    (c as int) - ('0' as int)
  }

  function DigitChar(d: nat): (c: char)
    requires d < 10
    ensures IsDigit(c) && DigitValue(c) == d
  {
    (('0' as int) + d) as char
  }

  /** The value of a digit string read most-significant digit first: the
      reference meaning of a decimal numeral. */
  function ValueOf(s: string): nat
    requires AllDigits(s)
  {
    if |s| == 0 then 0 else ValueOf(s[..|s| - 1]) * 10 + DigitValue(s[|s| - 1])
  }

  /** Go's scanning loop: fold the digits left to right into an accumulator,
      failing at the first character that is not a digit. `acc` is the value
      of the digits scanned so far. */
  function ScanDigits(s: string, i: nat, acc: nat): (r: Option<nat>)
    requires i <= |s| && AllDigits(s[..i]) && acc == ValueOf(s[..i])
    ensures r.Some? <==> AllDigits(s)
    ensures r.Some? ==> r.value == ValueOf(s)
    decreases |s| - i
  {
    if i == |s| then
      assert s[..i] == s;
      Some(acc)
    else if !IsDigit(s[i]) then
      None
    else
      assert s[..i + 1][..i] == s[..i];
      ScanDigits(s, i + 1, acc * 10 + DigitValue(s[i]))
  }

  /** The digits that follow an optional leading sign. */
  function Magnitude(s: string): string {
    if |s| > 0 && (s[0] == '+' || s[0] == '-') then s[1..] else s
  }

  /** `s` is a decimal numeral in the grammar `Atoi` accepts. */
  predicate IsNumeral(s: string) {
    |Magnitude(s)| > 0 && AllDigits(Magnitude(s))
  }

  /** The integer a numeral denotes, sign included. */
  function NumeralValue(s: string): int
    requires IsNumeral(s)
  {
    var u: int := ValueOf(Magnitude(s));
    if s[0] == '-' then -u else u
  }

  /** `strconv.Atoi`: `None` stands for Go's syntax and range errors alike. */
  function Atoi(s: string): (r: Option<int>)
    ensures r.Some? <==> IsNumeral(s) && InInt64(NumeralValue(s))
    ensures r.Some? ==> r.value == NumeralValue(s)
  {
    if |s| == 0 then None
    else
      var negative := s[0] == '-';
      var digits := if s[0] == '+' || s[0] == '-' then s[1..] else s;
      if |digits| == 0 then None
      else
        match ScanDigits(digits, 0, 0)
        case None => None
        case Some(u) =>
          var v: int := if negative then -(u as int) else u;
          if InInt64(v) then Some(v) else None
  }

  /** The shortest numeral for a natural number. */
  function NatToString(n: nat): (s: string)
    ensures |s| > 0 && AllDigits(s)
    decreases n
  {
    if n < 10 then [DigitChar(n)] else NatToString(n / 10) + [DigitChar(n % 10)]
  }

  /** `strconv.Itoa`. */
  function Itoa(n: int): string {
    if n < 0 then "-" + NatToString(-n) else NatToString(n)
  }

  lemma {:induction false} NatToStringValue(n: nat)
    ensures ValueOf(NatToString(n)) == n
    decreases n
  {
    var s := NatToString(n);
    if n >= 10 {
      NatToStringValue(n / 10);
      assert s[..|s| - 1] == NatToString(n / 10);
    }
  }

  /** Round trip: every 64-bit integer is read back from its own numeral. */
  lemma AtoiItoa(n: int)
    requires InInt64(n)
    ensures Atoi(Itoa(n)) == Some(n)
  {
    if n < 0 {
      NatToStringValue(-n);
      assert Magnitude(Itoa(n)) == NatToString(-n);
    } else {
      NatToStringValue(n);
      assert Magnitude(Itoa(n)) == NatToString(n);
    }
  }

  /** A string with a character other than a digit after its optional sign,
      an empty string and a lone sign are all rejected. */
  lemma AtoiRejectsNonDigits(s: string, i: nat)
    requires i < |s| && !IsDigit(s[i])
    requires i > 0 || (s[0] != '+' && s[0] != '-')
    ensures Atoi(s) == None
  {
    var m := Magnitude(s);
    if |s| > 0 && (s[0] == '+' || s[0] == '-') {
      assert m[i - 1] == s[i];
    } else {
      assert m[i] == s[i];
    }
  }

  lemma AtoiRejectsEmptyOrSignOnly()
    ensures Atoi("") == None && Atoi("+") == None && Atoi("-") == None
  {
  }

  /** Examples of the accepted grammar: a plus sign, leading zeros and a minus
      sign are all allowed, so several directory names denote the same serial. */
  lemma AtoiSignsAndZeros()
    ensures Atoi("42") == Some(42)
    ensures Atoi("+007") == Some(7)
    ensures Atoi("-3") == Some(-3)
    ensures Atoi("abc") == None
  {
    AtoiRejectsNonDigits("abc", 0);
  }

  /** A numeral whose value does not fit in 64 bits is rejected (Go's range error). */
  lemma AtoiRejectsOutOfRange(n: int)
    requires !InInt64(n)
    ensures Atoi(Itoa(n)) == None
  {
    if n < 0 {
      NatToStringValue(-n);
      assert Magnitude(Itoa(n)) == NatToString(-n);
    } else {
      NatToStringValue(n);
      assert Magnitude(Itoa(n)) == NatToString(n);
    }
  }
}

=== FILE: key_artifacts.dfy ===
/** Loading one key directory (`signingKeyFromDir`): the directory's base name
    is the device serial, and a recursive walk of the directory sorts the files
    it visits into three artifact slots by file-name suffix. The walk itself and
    the conversion of the artifacts into a signing key are collaborators: the
    walk is given as the sequence of events it produced, the conversion as a
    function. */
module KeyArtifacts {
  import opened Wrappers
  import opened Ceremony
  import Decimal

  /** The three artifacts a key ceremony leaves for each device. */
  datatype ArtifactKind = PublicKeyFile | KeyCertFile | DeviceCertFile

  function Suffix(k: ArtifactKind): string {
    match k
    case PublicKeyFile => "_pubkey.pem"
    case KeyCertFile => "_key_cert.pem"
    case DeviceCertFile => "_device_cert.pem"
  }

  /** Go's `strings.HasSuffix`. */
  predicate EndsWith(s: string, suffix: string) {
    |suffix| <= |s| && s[|s| - |suffix|..] == suffix
  }

  lemma SuffixOfSuffix(s: string, a: string, b: string)
    requires EndsWith(s, a) && EndsWith(s, b) && |a| <= |b|
    ensures EndsWith(b, a)
  {
    assert b[|b| - |a|..] == s[|s| - |a|..];
  }

  /** No file name carries two of the artifact suffixes. */
  lemma SuffixesExclusive(name: string, k1: ArtifactKind, k2: ArtifactKind)
    requires EndsWith(name, Suffix(k1)) && EndsWith(name, Suffix(k2))
    ensures k1 == k2
  {
    if k1 != k2 {
      if |Suffix(k1)| <= |Suffix(k2)| {
        SuffixOfSuffix(name, Suffix(k1), Suffix(k2));
      } else {
        SuffixOfSuffix(name, Suffix(k2), Suffix(k1));
      }
      assert false;
    }
  }

  /** The slot a file name fills: the source tests the suffixes in the order
      public key, key certificate, device certificate, and ignores all other
      names. */
  function Classify(name: string): Option<ArtifactKind> {
    if EndsWith(name, Suffix(PublicKeyFile)) then Some(PublicKeyFile)
    else if EndsWith(name, Suffix(KeyCertFile)) then Some(KeyCertFile)
    else if EndsWith(name, Suffix(DeviceCertFile)) then Some(DeviceCertFile)
    else None
  }

  /** Because the suffixes exclude each other, the order of the tests is
      immaterial: a name fills slot `k` exactly when it ends in `k`'s suffix,
      and fills no slot exactly when it ends in none of them. */
  lemma ClassifyBySuffix(name: string, k: ArtifactKind)
    ensures Classify(name) == Some(k) <==> EndsWith(name, Suffix(k))
    ensures Classify(name).None? <==>
      !EndsWith(name, Suffix(PublicKeyFile)) && !EndsWith(name, Suffix(KeyCertFile))
      && !EndsWith(name, Suffix(DeviceCertFile))
  {
    if EndsWith(name, Suffix(k)) {
      if EndsWith(name, Suffix(PublicKeyFile)) {
        SuffixesExclusive(name, k, PublicKeyFile);
      } else if EndsWith(name, Suffix(KeyCertFile)) {
        SuffixesExclusive(name, k, KeyCertFile);
      }
    }
  }

  /** The artifacts found so far; `None` is a slice the walk never assigned (nil). */
  datatype Slots = Slots(pubKey: Option<Bytes>, keyCert: Option<Bytes>, deviceCert: Option<Bytes>)

  const NoArtifacts := Slots(None, None, None)

  function Get(s: Slots, k: ArtifactKind): Option<Bytes> {
    match k
    case PublicKeyFile => s.pubKey
    case KeyCertFile => s.keyCert
    case DeviceCertFile => s.deviceCert
  }

  function Put(s: Slots, k: ArtifactKind, contents: Bytes): (r: Slots)
    ensures Get(r, k) == Some(contents)
    ensures forall j :: j != k ==> Get(r, j) == Get(s, j)
  {
    match k
    case PublicKeyFile => s.(pubKey := Some(contents))
    case KeyCertFile => s.(keyCert := Some(contents))
    case DeviceCertFile => s.(deviceCert := Some(contents))
  }

  /** One call the walk makes to its callback: either a visited entry, with
      what reading it would return, or an access error the walk reports. */
  datatype WalkEvent =
    | Visit(name: string, contents: Result<Bytes, Cause>)
    | AccessError(path: string, cause: Cause)

  /** The event is a visit of a file that fills slot `k`. */
  predicate IsVisitOf(ev: WalkEvent, k: ArtifactKind) {
    ev.Visit? && Classify(ev.name) == Some(k)
  }

  /** The event makes the callback return an error, which stops the walk. A
      file whose name matches no suffix is never read, so it cannot fail. */
  predicate Aborts(ev: WalkEvent) {
    ev.AccessError? || (Classify(ev.name).Some? && ev.contents.Failure?)
  }

  function AbortError(ev: WalkEvent): Error
    requires Aborts(ev)
  {
    if ev.AccessError? then WalkFailed(ev.path, ev.cause)
    else ArtifactUnreadable(ev.name, ev.contents.error)
  }

  /** The walk callback applied to one event. */
  function Step(slots: Slots, ev: WalkEvent): (r: Result<Slots, Error>)
    ensures r.Failure? <==> Aborts(ev)
    ensures r.Failure? ==> r.error == AbortError(ev)
    ensures r.Success? ==> forall k :: Get(r.value, k) == (if IsVisitOf(ev, k) then Some(ev.contents.value) else Get(slots, k))
  {
    match ev
    case AccessError(path, cause) => Failure(WalkFailed(path, cause))
    case Visit(name, contents) =>
      match Classify(name)
      case None => Success(slots)
      case Some(k) =>
        if contents.Failure? then Failure(ArtifactUnreadable(name, contents.error))
        else Success(Put(slots, k, contents.value))
  }

  /** What a visit read, if it is a successful read. */
  function ReadOf(ev: WalkEvent): Option<Bytes> {
    if ev.Visit? && ev.contents.Success? then Some(ev.contents.value) else None
  }

  /** Event `i` is the last visit that fills slot `k`. */
  ghost predicate LastVisitOf(events: seq<WalkEvent>, i: int, k: ArtifactKind) {
    0 <= i < |events| && IsVisitOf(events[i], k)
    && forall j :: i < j < |events| ==> !IsVisitOf(events[j], k)
  }

  /** Slot `k` holds what the last visit of a `k` file read, and is unset when
      no such file was visited. */
  ghost predicate HoldsLastVisit(events: seq<WalkEvent>, slots: Slots, k: ArtifactKind) {
    && (Get(slots, k).None? <==> forall i :: 0 <= i < |events| ==> !IsVisitOf(events[i], k))
    && (Get(slots, k).Some? ==> exists i :: LastVisitOf(events, i, k) && Get(slots, k) == ReadOf(events[i]))
  }

  /** Event `i` is the first to abort the walk. */
  ghost predicate FirstAbort(events: seq<WalkEvent>, i: int) {
    0 <= i < |events| && Aborts(events[i])
    && forall j :: 0 <= j < i ==> !Aborts(events[j])
  }

  /** Appending one successfully processed event keeps slot `k` equal to its last visit. */
  lemma LastVisitExtends(prefix: seq<WalkEvent>, last: WalkEvent, slots: Slots, next: Slots, k: ArtifactKind)
    requires HoldsLastVisit(prefix, slots, k)
    requires Step(slots, last) == Success(next)
    ensures HoldsLastVisit(prefix + [last], next, k)
  {
    var events := prefix + [last];
    if IsVisitOf(last, k) {
      assert LastVisitOf(events, |prefix|, k);
    } else {
      assert Get(next, k) == Get(slots, k);
      assert forall i :: 0 <= i < |prefix| ==> events[i] == prefix[i];
      if Get(next, k).Some? {
        var i :| LastVisitOf(prefix, i, k) && Get(slots, k) == ReadOf(prefix[i]);
        assert LastVisitOf(events, i, k);
      }
    }
  }

  /** The callback run over every event in walk order, stopping at the first error. */
  function Collect(events: seq<WalkEvent>): (r: Result<Slots, Error>)
    ensures r.Failure? <==> exists i :: 0 <= i < |events| && Aborts(events[i])
    ensures r.Failure? ==> exists i :: FirstAbort(events, i) && r.error == AbortError(events[i])
    ensures r.Success? ==> forall k :: HoldsLastVisit(events, r.value, k)
    decreases |events|
  {
    if |events| == 0 then Success(NoArtifacts)
    else
      var prefix := events[..|events| - 1];
      var last := events[|events| - 1];
      assert forall i :: 0 <= i < |prefix| ==> prefix[i] == events[i];
      match Collect(prefix)
      case Failure(e) => Failure(e)
      case Success(slots) =>
        var r := Step(slots, last);
        if r.Success? then
          assert forall k :: HoldsLastVisit(events, r.value, k) by {
            assert events == prefix + [last];
            forall k: ArtifactKind ensures HoldsLastVisit(events, r.value, k) {
              LastVisitExtends(prefix, last, slots, r.value, k);
            }
          }
          r
        else
          assert FirstAbort(events, |events| - 1);
          r
  }

  /** A file whose name matches no suffix leaves every slot as it was, and is
      not even read: an unreadable unrelated file does not stop the walk. */
  lemma UnmatchedNameIgnored(slots: Slots, name: string, contents: Result<Bytes, Cause>)
    requires !EndsWith(name, Suffix(PublicKeyFile)) && !EndsWith(name, Suffix(KeyCertFile))
    requires !EndsWith(name, Suffix(DeviceCertFile))
    ensures Step(slots, Visit(name, contents)) == Success(slots)
  {
  }

  /** After a successful walk each slot holds the contents of the last visited
      file with that slot's suffix: a later file overwrites an earlier one. */
  lemma LastVisitWins(events: seq<WalkEvent>, slots: Slots, j: int, k: ArtifactKind)
    requires Collect(events) == Success(slots)
    requires LastVisitOf(events, j, k)
    ensures Get(slots, k) == ReadOf(events[j]) && Get(slots, k).Some?
  {
    assert HoldsLastVisit(events, slots, k);
    assert Get(slots, k).Some?;
    var m :| LastVisitOf(events, m, k) && Get(slots, k) == ReadOf(events[m]);
    assert m == j;
  }

  /** `signingKeyFromDir`: the serial comes from the directory's base name
      before anything inside it is examined; then the walk fills the slots and
      the collaborator `toSigningKey` (public key, device certificate, key
      certificate) builds the key. */
  function SigningKeyFromDir(
    toSigningKey: (int, Option<Bytes>, Option<Bytes>, Option<Bytes>) -> Result<SigningKey, Cause>,
    name: string,
    events: seq<WalkEvent>): (r: Result<SigningKey, Error>)
    ensures Decimal.Atoi(name).None? ==> r == Failure(InvalidKeyDirectoryName(name))
    ensures r.Success? ==>
      && Decimal.Atoi(name).Some?
      && Collect(events).Success?
      && var s := Collect(events).value;
         toSigningKey(Decimal.Atoi(name).value, s.pubKey, s.deviceCert, s.keyCert) == Success(r.value)
    ensures Decimal.Atoi(name).Some? && Collect(events).Failure? ==> r == Failure(Collect(events).error)
    ensures r.Success? <==>
      && Decimal.Atoi(name).Some?
      && Collect(events).Success?
      && var s := Collect(events).value;
         toSigningKey(Decimal.Atoi(name).value, s.pubKey, s.deviceCert, s.keyCert).Success?
    ensures Decimal.Atoi(name).Some? && Collect(events).Success? ==>
      var s := Collect(events).value;
      var loaded := toSigningKey(Decimal.Atoi(name).value, s.pubKey, s.deviceCert, s.keyCert);
      loaded.Failure? ==> r == Failure(SigningKeyInvalid(Decimal.Atoi(name).value, loaded.error))
  {
    match Decimal.Atoi(name)
    case None => Failure(InvalidKeyDirectoryName(name))
    case Some(serial) =>
      match Collect(events)
      case Failure(e) => Failure(e)
      case Success(s) =>
        match toSigningKey(serial, s.pubKey, s.deviceCert, s.keyCert)
        case Failure(cause) => Failure(SigningKeyInvalid(serial, cause))
        case Success(key) => Success(key)
  }

  /** A directory whose name is not a decimal integer fails the same way
      whatever it contains: no file inside it is looked at. */
  lemma InvalidNameIgnoresContents(
    toSigningKey: (int, Option<Bytes>, Option<Bytes>, Option<Bytes>) -> Result<SigningKey, Cause>,
    name: string, events1: seq<WalkEvent>, events2: seq<WalkEvent>)
    requires Decimal.Atoi(name).None?
    ensures SigningKeyFromDir(toSigningKey, name, events1) == SigningKeyFromDir(toSigningKey, name, events2)
    ensures SigningKeyFromDir(toSigningKey, name, events1).Failure?
  {
  }
}

=== FILE: key_identity.dfy ===
/** Key identifiers (`getKeyID`): a signing key's public point is encoded in
    uncompressed form (SEC 1, section 2.3.3: the byte 4, then X, then Y, each
    a 32-byte big-endian number for P-256), wrapped in a TUF key value of type
    and scheme `ecdsa-sha2-nistp256`, and the TUF library's `IDs` derivation is
    asked for its identifiers; the first one is the key's ID. `IDs` (canonical
    JSON and SHA-256) is a collaborator and is passed in as a function. */
module KeyIdentity {
  import opened Wrappers
  import opened Ceremony

  const KeyTypeEcdsaP256 := "ecdsa-sha2-nistp256"
  const KeySchemeEcdsaP256 := "ecdsa-sha2-nistp256"
  const KeyAlgorithms := ["sha256", "sha512"]

  /** Bytes per coordinate on P-256: (256 + 7) / 8. */
  const CoordinateBytes: nat := 32
  const UncompressedTag: byte := 4

  /** A TUF public key description, the input of the identifier derivation. */
  datatype KeyValue = KeyValue(keyType: string, scheme: string, algorithms: seq<string>, public: Bytes)

  function Pow256(n: nat): nat {
    if n == 0 then 1 else 256 * Pow256(n - 1)
  }

  /** Big-endian encoding of `v` in exactly `width` bytes (Go's `big.Int.FillBytes`). */
  function BigEndian(v: nat, width: nat): (r: Bytes)
    ensures |r| == width
  {
    if width == 0 then [] else BigEndian(v / 256, width - 1) + [v % 256]
  }

  function FromBigEndian(s: Bytes): nat {
    if |s| == 0 then 0 else FromBigEndian(s[..|s| - 1]) * 256 + s[|s| - 1]
  }

  lemma {:induction false} BigEndianRoundTrip(v: nat, width: nat)
    requires v < Pow256(width)
    ensures FromBigEndian(BigEndian(v, width)) == v
  {
    if width > 0 {
      var s := BigEndian(v, width);
      BigEndianRoundTrip(v / 256, width - 1);
      assert s[..|s| - 1] == BigEndian(v / 256, width - 1);
    }
  }

  /** The point fits the curve's coordinate width, as every P-256 point does. */
  predicate FitsP256(p: EcPoint) {
    p.x < Pow256(CoordinateBytes) && p.y < Pow256(CoordinateBytes)
  }

  /** `elliptic.Marshal` for P-256: the uncompressed point encoding. */
  function Marshal(p: EcPoint): (r: Bytes)
    ensures |r| == 1 + 2 * CoordinateBytes && r[0] == UncompressedTag
  {
    [UncompressedTag] + BigEndian(p.x, CoordinateBytes) + BigEndian(p.y, CoordinateBytes)
  }

  /** Reads an uncompressed point encoding back into its coordinates. */
  function DecodeUncompressed(b: Bytes): Option<EcPoint> {
    if |b| == 1 + 2 * CoordinateBytes && b[0] == UncompressedTag then
      Some(EcPoint(FromBigEndian(b[1..1 + CoordinateBytes]), FromBigEndian(b[1 + CoordinateBytes..])))
    else
      None
  }

  /** Decoding inverts the encoding for every point of the curve. */
  lemma MarshalRoundTrip(p: EcPoint)
    requires FitsP256(p)
    ensures DecodeUncompressed(Marshal(p)) == Some(p)
  {
    var b := Marshal(p);
    assert b[1..1 + CoordinateBytes] == BigEndian(p.x, CoordinateBytes);
    assert b[1 + CoordinateBytes..] == BigEndian(p.y, CoordinateBytes);
    BigEndianRoundTrip(p.x, CoordinateBytes);
    BigEndianRoundTrip(p.y, CoordinateBytes);
  }

  /** The TUF key value built from a signing key as `getKeyID` builds it. */
  function KeyValueOf(k: SigningKey): (r: KeyValue)
    ensures r.keyType == KeyTypeEcdsaP256 && r.scheme == KeySchemeEcdsaP256
    ensures |r.public| == 1 + 2 * CoordinateBytes && r.public[0] == UncompressedTag
    ensures FitsP256(k.publicKey) ==> DecodeUncompressed(r.public) == Some(k.publicKey)
  {
    var kv := KeyValue(KeyTypeEcdsaP256, KeySchemeEcdsaP256, KeyAlgorithms, Marshal(k.publicKey));
    if FitsP256(k.publicKey) then MarshalRoundTrip(k.publicKey); kv else kv
  }

  /** Distinct public points give distinct key values, so any two keys that
      share an identifier do so only through the derivation itself. */
  lemma KeyValueDeterminesPoint(k1: SigningKey, k2: SigningKey)
    requires FitsP256(k1.publicKey) && FitsP256(k2.publicKey)
    requires KeyValueOf(k1) == KeyValueOf(k2)
    ensures k1.publicKey == k2.publicKey
  {
    MarshalRoundTrip(k1.publicKey);
    MarshalRoundTrip(k2.publicKey);
  }

  /** `getKeyID`: the first identifier the derivation yields, or an error when it yields none. */
  function GetKeyId(ids: KeyValue -> seq<KeyId>, k: SigningKey): (r: Result<KeyId, Error>)
    ensures r.Failure? <==> |ids(KeyValueOf(k))| == 0
    ensures r.Failure? ==> r.error == NoKeyId
    ensures r.Success? ==> r.value == ids(KeyValueOf(k))[0]
  {
    var candidates := ids(KeyValueOf(k));
    if |candidates| == 0 then Failure(NoKeyId) else Success(candidates[0])
  }

  /** The identifier depends on the public point alone: two keys from
      different devices (different serials) that hold the same point get the
      same identifier. */
  lemma KeyIdDependsOnlyOnPoint(ids: KeyValue -> seq<KeyId>, k1: SigningKey, k2: SigningKey)
    requires k1.publicKey == k2.publicKey
    ensures GetKeyId(ids, k1) == GetKeyId(ids, k2)
  {
  }
}

=== FILE: metadata_audit.dfy ===
/** The metadata audit (`verifyMetadata`): open the TUF repository, read the
    root metadata, and for every role fetch its signed document and check its
    signatures, reporting success, a threshold shortfall ("A/B valid
    signatures") or another verification error. A role's verification result
    never stops the audit; only a failure to set up the store, to read the
    root metadata, or to fetch a role's document does. The store, database and
    signature checker are go-tuf collaborators and are passed in. */
module MetadataAudit {
  import opened Wrappers
  import opened Ceremony
  import Registry

  /** A role from the root metadata: its authorised keys and signature threshold. */
  datatype Role = Role(keyIds: set<KeyId>, threshold: int)

  /** A role's signed document; its contents matter only to the signature checker. */
  datatype SignedMeta = SignedMeta(payload: Bytes)

  /** What the database's signature check returns for one document: nil, a
      threshold error carrying the expected and actual counts, or any other error. */
  datatype SignatureCheck =
    | SignaturesValid
    | RoleThreshold(expected: int, actual: int)
    | OtherVerifyError(cause: Cause)

  /** The repository as the audit sees it. `createDb` is `None` when the
      database was built; `roleOrder` is the order in which Go's map iteration
      visits the root metadata's roles, which the language leaves unspecified. */
  datatype Repository = Repository(
    createDb: Option<Cause>,
    root: Result<map<string, Role>, Cause>,
    roleOrder: seq<string>,
    getSignedMeta: string -> Result<SignedMeta, Cause>,
    verifySignatures: (SignedMeta, string) -> SignatureCheck)

  /** `order` visits every name of `names` exactly once, as a map iteration does. */
  predicate Enumerates(order: seq<string>, names: set<string>) {
    && (forall i, j :: 0 <= i < j < |order| ==> order[i] != order[j])
    && (forall i :: 0 <= i < |order| ==> order[i] in names)
    && (forall name :: name in names ==> name in order)
  }

  predicate WellFormed(repo: Repository) {
    repo.root.Success? ==> Enumerates(repo.roleOrder, repo.root.value.Keys)
  }

  /** How a role's check is reported. */
  datatype RoleOutcome =
    | ThresholdMet
    | PartialSignatures(actual: int, required: int)
    | VerificationError(cause: Cause)

  datatype RoleReport = RoleReport(role: string, outcome: RoleOutcome)

  /** The result lines the audit logged, and the error it returned, if any. */
  datatype AuditLog = AuditLog(reports: seq<RoleReport>, failure: Option<Error>)

  const MetaExtension := ".json"

  /** The file a role's signed document is read from: the role name with the
      `.json` extension appended. */
  function MetaFile(name: string): (r: string)
    ensures |r| == |name| + |MetaExtension|
    ensures r[..|name|] == name && r[|name|..] == MetaExtension
  {
    name + MetaExtension
  }

  /** Distinct roles are read from distinct files. */
  lemma MetaFileInjective(a: string, b: string)
    requires MetaFile(a) == MetaFile(b)
    ensures a == b
  {
    assert |a| == |b|;
    assert a == MetaFile(a)[..|a|];
  }

  /** A shortfall is reported with the actual count from the error and the
      required count from the root metadata's role; every other error is
      reported as such. */
  function Classify(check: SignatureCheck, role: Role): (r: RoleOutcome)
    ensures r.ThresholdMet? <==> check.SignaturesValid?
    ensures r.PartialSignatures? <==> check.RoleThreshold?
    ensures r.PartialSignatures? ==> r.actual == check.actual && r.required == role.threshold
    ensures r.VerificationError? ==> check == OtherVerifyError(r.cause)
  {
    match check
    case SignaturesValid => ThresholdMet
    case RoleThreshold(_, actual) => PartialSignatures(actual, role.threshold)
    case OtherVerifyError(cause) => VerificationError(cause)
  }

  predicate FetchFails(repo: Repository, name: string) {
    repo.getSignedMeta(MetaFile(name)).Failure?
  }

  /** The report line for one role whose document was fetched. */
  function ReportFor(repo: Repository, roles: map<string, Role>, name: string): RoleReport
    requires name in roles && !FetchFails(repo, name)
  {
    var signed := repo.getSignedMeta(MetaFile(name)).value;
    RoleReport(name, Classify(repo.verifySignatures(signed, name), roles[name]))
  }

  /** `rep` is the report line of one of the root metadata's roles. */
  predicate IsRoleReport(repo: Repository, rep: RoleReport) {
    && repo.root.Success?
    && rep.role in repo.root.value
    && !FetchFails(repo, rep.role)
    && rep == ReportFor(repo, repo.root.value, rep.role)
  }

  /** Role `i` is the first whose document cannot be fetched. */
  ghost predicate FirstFetchFailure(repo: Repository, order: seq<string>, i: int) {
    0 <= i < |order| && FetchFails(repo, order[i])
    && forall j :: 0 <= j < i ==> !FetchFails(repo, order[j])
  }

  /** The first `n` reports are those of the first `n` roles visited. */
  ghost predicate ReportsPrefix(repo: Repository, roles: map<string, Role>, order: seq<string>, reports: seq<RoleReport>, n: int)
    requires forall i :: 0 <= i < |order| ==> order[i] in roles
  {
    0 <= n <= |order| && |reports| == n
    && forall i :: 0 <= i < n ==> !FetchFails(repo, order[i]) && reports[i] == ReportFor(repo, roles, order[i])
  }

  /** The loop over the roles, in visiting order. */
  function AuditRoles(repo: Repository, roles: map<string, Role>, order: seq<string>): (r: AuditLog)
    requires forall i :: 0 <= i < |order| ==> order[i] in roles
    ensures r.failure.Some? <==> exists i :: 0 <= i < |order| && FetchFails(repo, order[i])
    ensures r.failure.None? ==> ReportsPrefix(repo, roles, order, r.reports, |order|)
    ensures r.failure.Some? ==> exists i ::
      && FirstFetchFailure(repo, order, i)
      && ReportsPrefix(repo, roles, order, r.reports, i)
      && r.failure == Some(SignedMetaUnavailable(MetaFile(order[i]), repo.getSignedMeta(MetaFile(order[i])).error))
    decreases |order|
  {
    if |order| == 0 then AuditLog([], None)
    else
      var prefix := order[..|order| - 1];
      var name := order[|order| - 1];
      assert forall i :: 0 <= i < |prefix| ==> prefix[i] == order[i];
      var before := AuditRoles(repo, roles, prefix);
      if before.failure.Some? then
        before
      else
        match repo.getSignedMeta(MetaFile(name))
        case Failure(cause) =>
          assert FirstFetchFailure(repo, order, |prefix|);
          AuditLog(before.reports, Some(SignedMetaUnavailable(MetaFile(name), cause)))
        case Success(signed) =>
          var report := RoleReport(name, Classify(repo.verifySignatures(signed, name), roles[name]));
          assert ReportFor(repo, roles, name) == report;
          AuditLog(before.reports + [report], None)
  }

  /** `verifyMetadata`. The key map is accepted and never consulted. It fails
      exactly when the store, the root metadata or some role's document cannot
      be read; otherwise it reports every role of the root metadata once. */
  function VerifyMetadata(repo: Repository, keys: Registry.KeyMap): (r: AuditLog)
    requires WellFormed(repo)
    ensures r.failure.Some? <==>
      || repo.createDb.Some?
      || repo.root.Failure?
      || exists name :: name in repo.root.value && FetchFails(repo, name)
    ensures repo.createDb.Some? ==> r == AuditLog([], Some(StoreUnavailable(repo.createDb.value)))
    ensures repo.createDb.None? && repo.root.Failure? ==> r == AuditLog([], Some(RootMetadataUnavailable(repo.root.error)))
    ensures repo.createDb.None? && repo.root.Success? && r.failure.Some? ==> exists i ::
      && FirstFetchFailure(repo, repo.roleOrder, i)
      && ReportsPrefix(repo, repo.root.value, repo.roleOrder, r.reports, i)
      && r.failure == Some(SignedMetaUnavailable(MetaFile(repo.roleOrder[i]), repo.getSignedMeta(MetaFile(repo.roleOrder[i])).error))
    ensures forall i :: 0 <= i < |r.reports| ==> IsRoleReport(repo, r.reports[i])
    ensures r.failure.None? ==>
      && |r.reports| == |repo.root.value|
      && forall name :: name in repo.root.value ==> ReportFor(repo, repo.root.value, name) in r.reports
  {
    match repo.createDb
    case Some(cause) => AuditLog([], Some(StoreUnavailable(cause)))
    case None =>
      match repo.root
      case Failure(cause) => AuditLog([], Some(RootMetadataUnavailable(cause)))
      case Success(roles) =>
        var r := AuditRoles(repo, roles, repo.roleOrder);
        assert r.failure.Some? <==> exists name :: name in roles && FetchFails(repo, name) by {
          if r.failure.Some? {
            var i :| 0 <= i < |repo.roleOrder| && FetchFails(repo, repo.roleOrder[i]);
            assert repo.roleOrder[i] in roles;
          } else {
            forall name | name in roles ensures !FetchFails(repo, name) {
              var i :| 0 <= i < |repo.roleOrder| && repo.roleOrder[i] == name;
            }
          }
        }
        if r.failure.None? then
          EnumerationSize(repo.roleOrder, roles.Keys);
          forall name | name in roles ensures ReportFor(repo, roles, name) in r.reports {
            var i :| 0 <= i < |repo.roleOrder| && repo.roleOrder[i] == name;
            assert r.reports[i] == ReportFor(repo, roles, name);
          }
          r
        else
          r
  }

  /** An enumeration without repetition is as long as the set it enumerates. */
  lemma {:induction false} EnumerationSize(order: seq<string>, names: set<string>)
    requires Enumerates(order, names)
    ensures |order| == |names|
    decreases |order|
  {
    if |order| > 0 {
      var last := order[|order| - 1];
      var prefix := order[..|order| - 1];
      assert forall i :: 0 <= i < |prefix| ==> prefix[i] == order[i];
      assert last !in prefix;
      assert Enumerates(prefix, names - {last}) by {
        forall name | name in names - {last} ensures name in prefix {
          var i :| 0 <= i < |order| && order[i] == name;
          assert i < |prefix|;
        }
      }
      EnumerationSize(prefix, names - {last});
    } else {
      assert forall name :: name in names ==> name in order;
      assert names == {};
    }
  }

  /** The key map handed to the audit has no influence on its outcome. */
  lemma AuditIgnoresKeys(repo: Repository, keys1: Registry.KeyMap, keys2: Registry.KeyMap)
    requires WellFormed(repo)
    ensures VerifyMetadata(repo, keys1) == VerifyMetadata(repo, keys2)
  {
  }

  /** Whatever order the map iteration picks, the audit fails or succeeds
      alike, and a successful audit reports the same lines. */
  lemma AuditOrderIndependent(repo: Repository, order: seq<string>, keys: Registry.KeyMap)
    requires WellFormed(repo) && WellFormed(repo.(roleOrder := order))
    ensures VerifyMetadata(repo, keys).failure.Some? <==> VerifyMetadata(repo.(roleOrder := order), keys).failure.Some?
    ensures VerifyMetadata(repo, keys).failure.None? ==>
      forall rep :: rep in VerifyMetadata(repo, keys).reports <==> rep in VerifyMetadata(repo.(roleOrder := order), keys).reports
  {
    var other := repo.(roleOrder := order);
    var r1, r2 := VerifyMetadata(repo, keys), VerifyMetadata(other, keys);
    assert forall name :: FetchFails(repo, name) == FetchFails(other, name);
    if r1.failure.None? {
      forall rep ensures rep in r1.reports <==> rep in r2.reports {
        if rep in r1.reports {
          var i :| 0 <= i < |r1.reports| && r1.reports[i] == rep;
          assert IsRoleReport(repo, rep);
          assert ReportFor(other, other.root.value, rep.role) in r2.reports;
        }
        if rep in r2.reports {
          var i :| 0 <= i < |r2.reports| && r2.reports[i] == rep;
          assert IsRoleReport(other, rep);
          assert ReportFor(repo, repo.root.value, rep.role) in r1.reports;
        }
      }
    }
  }

  /** Roles root (3 of 3 signatures), targets (1 of 2) and snapshot (1 of 1):
      the audit completes, reporting root and snapshot as met and targets as a
      1/2 shortfall, in whatever order the roles are visited. */
  lemma PartialThresholdScenario(repo: Repository, keys: Registry.KeyMap, rootKeys: set<KeyId>, targetsKeys: set<KeyId>, snapshotKeys: set<KeyId>)
    requires WellFormed(repo) && repo.createDb.None?
    requires repo.root == Success(map["root" := Role(rootKeys, 3), "targets" := Role(targetsKeys, 2), "snapshot" := Role(snapshotKeys, 1)])
    requires forall name :: repo.getSignedMeta(MetaFile(name)).Success?
    requires forall name :: (
      repo.verifySignatures(repo.getSignedMeta(MetaFile(name)).value, name)
        == if name == "targets" then RoleThreshold(2, 1) else SignaturesValid)
    ensures VerifyMetadata(repo, keys).failure.None?
    ensures RoleReport("root", ThresholdMet) in VerifyMetadata(repo, keys).reports
    ensures RoleReport("targets", PartialSignatures(1, 2)) in VerifyMetadata(repo, keys).reports
    ensures RoleReport("snapshot", ThresholdMet) in VerifyMetadata(repo, keys).reports
  {
    var roles := repo.root.value;
    assert ReportFor(repo, roles, "root") == RoleReport("root", ThresholdMet);
    assert ReportFor(repo, roles, "targets") == RoleReport("targets", PartialSignatures(1, 2));
    assert ReportFor(repo, roles, "snapshot") == RoleReport("snapshot", ThresholdMet);
  }
}

=== FILE: registry.dfy ===
/** The key registry (`verifySigningKeys`): every subdirectory of the key
    directory is loaded as a signing key, its certificate chain is checked
    against the root CA, and the key is recorded under its key ID. The build is
    fail-closed: the first failure ends it and no map is returned. Entries that
    are not directories are skipped, and a key ID seen twice keeps the key of
    the later directory. */
module Registry {
  import opened Wrappers
  import opened Ceremony
  import Decimal
  import opened KeyArtifacts
  import opened KeyIdentity

  /** One entry of the key directory's listing; `walk` is what the recursive
      walk of that entry reports, used only when the entry is a directory. */
  datatype DirEntry = DirEntry(name: string, isDir: bool, walk: seq<WalkEvent>)

  /** The cryptographic collaborators: the key loader (`keys.ToSigningKey`),
      the chain check (`SigningKey.Verify`, `None` meaning success) and the
      TUF identifier derivation (`Key.IDs`). */
  datatype KeyOracles = KeyOracles(
    toSigningKey: (int, Option<Bytes>, Option<Bytes>, Option<Bytes>) -> Result<SigningKey, Cause>,
    verify: (SigningKey, Certificate) -> Option<Cause>,
    ids: KeyValue -> seq<KeyId>)

  /** The registry: key ID to signing key. */
  type KeyMap = map<KeyId, SigningKey>

  datatype VerifiedKey = VerifiedKey(id: KeyId, key: SigningKey)

  /** One directory's contribution: load the key, check its chain, derive its ID. */
  function VerifyEntry(o: KeyOracles, rootCA: Certificate, e: DirEntry): (r: Result<VerifiedKey, Error>)
    ensures Decimal.Atoi(e.name).None? ==> r == Failure(InvalidKeyDirectoryName(e.name))
    ensures r.Success? <==>
      && SigningKeyFromDir(o.toSigningKey, e.name, e.walk).Success?
      && var key := SigningKeyFromDir(o.toSigningKey, e.name, e.walk).value;
         o.verify(key, rootCA).None? && GetKeyId(o.ids, key).Success?
    ensures r.Success? ==>
      && SigningKeyFromDir(o.toSigningKey, e.name, e.walk) == Success(r.value.key)
      && GetKeyId(o.ids, r.value.key) == Success(r.value.id)
    ensures SigningKeyFromDir(o.toSigningKey, e.name, e.walk).Failure? ==>
      r == Failure(SigningKeyFromDir(o.toSigningKey, e.name, e.walk).error)
    ensures SigningKeyFromDir(o.toSigningKey, e.name, e.walk).Success? ==>
      var key := SigningKeyFromDir(o.toSigningKey, e.name, e.walk).value;
      && (o.verify(key, rootCA).Some? ==> r == Failure(KeyNotVerified(key.serialNumber, o.verify(key, rootCA).value)))
      && (o.verify(key, rootCA).None? && GetKeyId(o.ids, key).Failure? ==> r == Failure(NoKeyId))
  {
    var key :- SigningKeyFromDir(o.toSigningKey, e.name, e.walk);
    match o.verify(key, rootCA)
    case Some(cause) => Failure(KeyNotVerified(key.serialNumber, cause))
    case None =>
      var id :- GetKeyId(o.ids, key);
      Success(VerifiedKey(id, key))
  }

  /** A per-directory check applied by the registry loop. */
  type Check = DirEntry -> Result<VerifiedKey, Error>

  /** The check `verifySigningKeys` applies: `VerifyEntry` with the
      collaborators and the root CA fixed. */
  function CheckWith(o: KeyOracles, rootCA: Certificate): Check {
    e => VerifyEntry(o, rootCA, e)
  }

  /** The entry is a directory whose check fails. */
  predicate Fails(check: Check, e: DirEntry) {
    e.isDir && check(e).Failure?
  }

  /** Entry `i` is the first processed entry that fails. */
  ghost predicate FirstFailure(check: Check, entries: seq<DirEntry>, i: int) {
    0 <= i < |entries| && Fails(check, entries[i])
    && forall j :: 0 <= j < i ==> !Fails(check, entries[j])
  }

  /** The entry is a directory that registers a key under `id`. */
  predicate RegistersId(check: Check, e: DirEntry, id: KeyId) {
    e.isDir && check(e).Success? && check(e).value.id == id
  }

  /** Entry `i` is the last one that registers a key under `id`. */
  ghost predicate LastWithId(check: Check, entries: seq<DirEntry>, i: int, id: KeyId) {
    0 <= i < |entries| && RegistersId(check, entries[i], id)
    && forall j :: i < j < |entries| ==> !RegistersId(check, entries[j], id)
  }

  /** The registry is exactly what the processed entries register, each ID
      bound to the key of the last entry that registers it. */
  ghost predicate RegistryOf(check: Check, entries: seq<DirEntry>, m: KeyMap) {
    && (forall i :: 0 <= i < |entries| && entries[i].isDir ==> check(entries[i]).Success? && check(entries[i]).value.id in m)
    && (forall id :: id in m ==> exists i :: LastWithId(check, entries, i, id) && m[id] == check(entries[i]).value.key)
  }

  lemma RegistryExtends(check: Check, prefix: seq<DirEntry>, last: DirEntry, m: KeyMap, next: KeyMap)
    requires RegistryOf(check, prefix, m)
    requires !Fails(check, last)
    requires next == if last.isDir then m[check(last).value.id := check(last).value.key] else m
    ensures RegistryOf(check, prefix + [last], next)
  {
    var entries := prefix + [last];
    assert forall i :: 0 <= i < |prefix| ==> entries[i] == prefix[i];
    forall id | id in next
      ensures exists i :: LastWithId(check, entries, i, id) && next[id] == check(entries[i]).value.key
    {
      if RegistersId(check, last, id) {
        assert LastWithId(check, entries, |prefix|, id);
      } else {
        var i :| LastWithId(check, prefix, i, id) && m[id] == check(prefix[i]).value.key;
        assert LastWithId(check, entries, i, id);
      }
    }
  }

  /** The loop of `verifySigningKeys` over the listing, in listing order. */
  function BuildRegistry(check: Check, entries: seq<DirEntry>): (r: Result<KeyMap, Error>)
    ensures r.Failure? <==> exists i :: 0 <= i < |entries| && Fails(check, entries[i])
    ensures r.Failure? ==> exists i :: FirstFailure(check, entries, i) && r.error == check(entries[i]).error
    ensures r.Success? ==> RegistryOf(check, entries, r.value)
    decreases |entries|
  {
    if |entries| == 0 then Success(map[])
    else
      var prefix := entries[..|entries| - 1];
      var last := entries[|entries| - 1];
      assert entries == prefix + [last];
      assert forall i :: 0 <= i < |prefix| ==> entries[i] == prefix[i];
      match BuildRegistry(check, prefix)
      case Failure(e) => Failure(e)
      case Success(m) =>
        if !last.isDir then
          RegistryExtends(check, prefix, last, m, m);
          Success(m)
        else
          match check(last)
          case Failure(e) =>
            assert FirstFailure(check, entries, |prefix|);
            Failure(e)
          case Success(v) =>
            RegistryExtends(check, prefix, last, m, m[v.id := v.key]);
            Success(m[v.id := v.key])
  }

  /** `verifySigningKeys`: list the key directory, then build the registry.
      It fails exactly when the listing fails or some directory fails to load,
      verify or yield an ID; when it succeeds, every key in the map passed the
      chain check against `rootCA` and is filed under its own ID. */
  function VerifySigningKeys(o: KeyOracles, rootCA: Certificate, listing: Result<seq<DirEntry>, Cause>): (r: Result<KeyMap, Error>)
    ensures listing.Failure? ==> r == Failure(KeyDirectoryUnreadable(listing.error))
    ensures listing.Success? ==>
      (r.Failure? <==> exists i :: 0 <= i < |listing.value| && listing.value[i].isDir
                                   && VerifyEntry(o, rootCA, listing.value[i]).Failure?)
    ensures listing.Success? && r.Failure? ==>
      exists i :: FirstFailure(CheckWith(o, rootCA), listing.value, i)
                  && r.error == VerifyEntry(o, rootCA, listing.value[i]).error
    ensures listing.Success? && r.Success? ==> RegistryOf(CheckWith(o, rootCA), listing.value, r.value)
    ensures r.Success? ==> forall id :: id in r.value ==>
      o.verify(r.value[id], rootCA).None? && GetKeyId(o.ids, r.value[id]) == Success(id)
  {
    match listing
    case Failure(cause) => Failure(KeyDirectoryUnreadable(cause))
    case Success(entries) =>
      var check := CheckWith(o, rootCA);
      var r := BuildRegistry(check, entries);
      assert forall i :: 0 <= i < |entries| ==> check(entries[i]) == VerifyEntry(o, rootCA, entries[i]);
      if r.Success? then
        assert forall id :: id in r.value ==>
          o.verify(r.value[id], rootCA).None? && GetKeyId(o.ids, r.value[id]) == Success(id) by {
          forall id | id in r.value
            ensures o.verify(r.value[id], rootCA).None? && GetKeyId(o.ids, r.value[id]) == Success(id)
          {
            var i :| LastWithId(check, entries, i, id) && r.value[id] == check(entries[i]).value.key;
          }
        }
        r
      else
        r
  }

  /** Two directories whose keys share an ID, in a listing where every
      directory loads and verifies: the repetition is no error, and the
      registry files the ID under the key of the later directory. */
  lemma DuplicateIdKeepsLater(check: Check, entries: seq<DirEntry>, i: int, j: int, id: KeyId)
    requires forall k :: 0 <= k < |entries| ==> !Fails(check, entries[k])
    requires 0 <= i < j < |entries|
    requires RegistersId(check, entries[i], id) && LastWithId(check, entries, j, id)
    ensures BuildRegistry(check, entries).Success?
    ensures id in BuildRegistry(check, entries).value
    ensures BuildRegistry(check, entries).value[id] == check(entries[j]).value.key
    ensures check(entries[i]).value.key != check(entries[j]).value.key ==>
      BuildRegistry(check, entries).value[id] != check(entries[i]).value.key
  {
    var r := BuildRegistry(check, entries);
    assert id in r.value;
    var k :| LastWithId(check, entries, k, id) && r.value[id] == check(entries[k]).value.key;
    assert k == j;
  }

  /** The registry's key set is exactly the set of IDs the directories register. */
  lemma RegistryKeySet(check: Check, entries: seq<DirEntry>)
    requires BuildRegistry(check, entries).Success?
    ensures BuildRegistry(check, entries).value.Keys ==
      set i | 0 <= i < |entries| && entries[i].isDir :: check(entries[i]).value.id
  {
    var m := BuildRegistry(check, entries).value;
    var ids := set i | 0 <= i < |entries| && entries[i].isDir :: check(entries[i]).value.id;
    forall id | id in m ensures id in ids {
      var i :| LastWithId(check, entries, i, id) && m[id] == check(entries[i]).value.key;
    }
  }

  /** A directory named other than a decimal integer aborts the whole build:
      whatever the other directories hold, no registry is returned. */
  lemma InvalidSerialAbortsBuild(o: KeyOracles, rootCA: Certificate, entries: seq<DirEntry>, i: int)
    requires 0 <= i < |entries| && entries[i].isDir && Decimal.Atoi(entries[i].name).None?
    ensures VerifySigningKeys(o, rootCA, Success(entries)).Failure?
  {
  }

  /** Directories "1", "2" and "abc", the first two holding valid keys: the
      build stops at "abc" with an invalid-name error and returns no registry. */
  lemma InvalidSerialAfterValidKeys(o: KeyOracles, rootCA: Certificate, w1: seq<WalkEvent>, w2: seq<WalkEvent>, w3: seq<WalkEvent>)
    requires VerifyEntry(o, rootCA, DirEntry("1", true, w1)).Success?
    requires VerifyEntry(o, rootCA, DirEntry("2", true, w2)).Success?
    ensures VerifySigningKeys(o, rootCA, Success([DirEntry("1", true, w1), DirEntry("2", true, w2), DirEntry("abc", true, w3)]))
      == Failure(InvalidKeyDirectoryName("abc"))
  {
    var entries := [DirEntry("1", true, w1), DirEntry("2", true, w2), DirEntry("abc", true, w3)];
    Decimal.AtoiRejectsNonDigits("abc", 0);
    var check := CheckWith(o, rootCA);
    var r := BuildRegistry(check, entries);
    assert Fails(check, entries[2]);
    var k :| FirstFailure(check, entries, k) && r.error == check(entries[k]).error;
    assert k == 2;
  }
}

=== FILE: verify_command.dfy ===
/** The `verify` command: the `--root` flag's setter, loading the root CA, and
    `main`'s phase order. The phases run as: parse the root CA, build the key
    registry, then (only when `--repository` is non-empty) audit the metadata.
    A fatal error in a phase ends the run with exit status 1 and nothing after
    it runs; a run that reaches its end exits with status 0. */
module VerifyCommand {
  import opened Wrappers
  import opened Ceremony
  import Registry
  import MetadataAudit

  /** The flags' default values. */
  const DefaultKeyDirectory := "../../../ceremony/2021-05-03/keys"
  const DefaultRepository := ""

  /** What `os.Stat` reports for a path. */
  datatype StatResult = Exists | NotExist | StatFailed(cause: Cause)

  /** `file.Set`: the `--root` flag rejects an empty value and a path that
      does not exist. Any other failure of `os.Stat` (a permission error, say)
      is not a non-existence error, so the value is accepted. */
  function SetFileFlag(s: string, stat: StatResult): (r: Result<string, Error>)
    ensures r.Success? <==> s != "" && !stat.NotExist?
    ensures r.Success? ==> r.value == s
    ensures s == "" ==> r == Failure(FlagNotSpecified)
  {
    if s == "" then Failure(FlagNotSpecified)
    else if stat.NotExist? then Failure(FlagPathMissing(s))
    else Success(s)
  }

  /** The command's flags after parsing. */
  datatype Config = Config(root: string, keyDirectory: string, repository: string)

  /** Every collaborator the command calls: file reading, certificate
      parsing, directory listing (`ioutil.ReadDir` together with each
      subdirectory's walk), the key oracles, and the TUF repository opened at a path. */
  datatype Environment = Environment(
    readFile: string -> Result<Bytes, Cause>,
    parseCert: Bytes -> Result<Certificate, Cause>,
    readDir: string -> Result<seq<Registry.DirEntry>, Cause>,
    keys: Registry.KeyOracles,
    openRepository: string -> MetadataAudit.Repository)

  /** `toCert`: read the file, then parse it as a certificate. */
  function ToCert(env: Environment, filename: string): (r: Result<Certificate, Error>)
    ensures r.Success? <==> env.readFile(filename).Success? && env.parseCert(env.readFile(filename).value).Success?
    ensures r.Success? ==> r.value == env.parseCert(env.readFile(filename).value).value
    ensures env.readFile(filename).Failure? ==> r == Failure(RootCertUnreadable(env.readFile(filename).error))
    ensures env.readFile(filename).Success? && env.parseCert(env.readFile(filename).value).Failure? ==>
      r == Failure(RootCertInvalid(env.parseCert(env.readFile(filename).value).error))
  {
    match env.readFile(filename)
    case Failure(cause) => Failure(RootCertUnreadable(cause))
    case Success(bytes) =>
      match env.parseCert(bytes)
      case Failure(cause) => Failure(RootCertInvalid(cause))
      case Success(cert) => Success(cert)
  }

  datatype Phase = ParseRootCA | BuildKeyRegistry | AuditRepository

  /** All phases, in the order `main` runs them. */
  const Pipeline := [ParseRootCA, BuildKeyRegistry, AuditRepository]

  /** What a run did: the phases it entered, its exit status, the error it
      stopped with, and the audit's log when the audit ran. */
  datatype RunOutcome = RunOutcome(phases: seq<Phase>, exitCode: int, failure: Option<Error>, audit: Option<MetadataAudit.AuditLog>)

  /** The registry a run builds, once its root CA has been loaded. */
  function RegistryFor(cfg: Config, env: Environment, rootCA: Certificate): Result<Registry.KeyMap, Error> {
    Registry.VerifySigningKeys(env.keys, rootCA, env.readDir(cfg.keyDirectory))
  }

  predicate RepositoryWellFormed(cfg: Config, env: Environment) {
    cfg.repository != "" ==> MetadataAudit.WellFormed(env.openRepository(cfg.repository))
  }

  /** The flags as parsed when only `--root` is given. */
  function DefaultConfig(root: string): Config {
    Config(root, DefaultKeyDirectory, DefaultRepository)
  }

  /** `main` after flag parsing. */
  function Run(cfg: Config, env: Environment): (r: RunOutcome)
    requires RepositoryWellFormed(cfg, env)
    ensures 1 <= |r.phases| <= |Pipeline| && r.phases == Pipeline[..|r.phases|]
    ensures r.exitCode == (if r.failure.Some? then 1 else 0)
    ensures BuildKeyRegistry in r.phases <==> ToCert(env, cfg.root).Success?
    ensures AuditRepository in r.phases <==>
      && ToCert(env, cfg.root).Success?
      && RegistryFor(cfg, env, ToCert(env, cfg.root).value).Success?
      && cfg.repository != ""
    ensures r.failure.Some? <==>
      || ToCert(env, cfg.root).Failure?
      || RegistryFor(cfg, env, ToCert(env, cfg.root).value).Failure?
      || (cfg.repository != ""
          && MetadataAudit.VerifyMetadata(env.openRepository(cfg.repository),
                                          RegistryFor(cfg, env, ToCert(env, cfg.root).value).value).failure.Some?)
    ensures r.audit.Some? <==> AuditRepository in r.phases
    ensures r.audit.Some? ==>
      r.audit.value == MetadataAudit.VerifyMetadata(env.openRepository(cfg.repository),
                                                    RegistryFor(cfg, env, ToCert(env, cfg.root).value).value)
  {
    match ToCert(env, cfg.root)
    case Failure(e) => RunOutcome([ParseRootCA], 1, Some(e), None)
    case Success(rootCA) =>
      match RegistryFor(cfg, env, rootCA)
      case Failure(e) => RunOutcome([ParseRootCA, BuildKeyRegistry], 1, Some(e), None)
      case Success(keyMap) =>
        if cfg.repository == "" then
          RunOutcome([ParseRootCA, BuildKeyRegistry], 0, None, None)
        else
          var log := MetadataAudit.VerifyMetadata(env.openRepository(cfg.repository), keyMap);
          RunOutcome(Pipeline, if log.failure.Some? then 1 else 0, log.failure, Some(log))
  }

  /** A root CA that cannot be loaded ends the run at once: the outcome does
      not depend on the key directory, the key oracles or the repository. */
  lemma RootFailureStopsRun(cfg: Config, env: Environment, other: Environment)
    requires RepositoryWellFormed(cfg, env) && RepositoryWellFormed(cfg, other)
    requires ToCert(env, cfg.root).Failure?
    requires other.readFile == env.readFile && other.parseCert == env.parseCert
    ensures Run(cfg, env) == Run(cfg, other)
    ensures Run(cfg, env).exitCode == 1 && Run(cfg, env).phases == [ParseRootCA]
  {
  }

  /** A failed registry build ends the run: the repository is never opened. */
  lemma RegistryFailureStopsRun(cfg: Config, env: Environment, openRepository: string -> MetadataAudit.Repository)
    requires RepositoryWellFormed(cfg, env) && RepositoryWellFormed(cfg, env.(openRepository := openRepository))
    requires ToCert(env, cfg.root).Success? && RegistryFor(cfg, env, ToCert(env, cfg.root).value).Failure?
    ensures Run(cfg, env) == Run(cfg, env.(openRepository := openRepository))
    ensures Run(cfg, env).exitCode == 1 && AuditRepository !in Run(cfg, env).phases
  {
  }

  /** Threshold shortfalls and per-role verification errors never change the
      exit status: when the store, the root metadata and every role's document
      can be read, a run whose key registry was built exits with status 0. */
  lemma AuditReportsDoNotFailRun(cfg: Config, env: Environment)
    requires RepositoryWellFormed(cfg, env)
    requires ToCert(env, cfg.root).Success? && RegistryFor(cfg, env, ToCert(env, cfg.root).value).Success?
    requires cfg.repository != "" ==>
      var repo := env.openRepository(cfg.repository);
      && repo.createDb.None? && repo.root.Success?
      && forall name :: name in repo.root.value ==> !MetadataAudit.FetchFails(repo, name)
    ensures Run(cfg, env).exitCode == 0
  {
  }

  /** Without `--repository` the run stops after the key registry: the
      repository is never opened, and the exit status is 0 exactly when the
      root CA loads and the registry builds. */
  lemma DefaultRunSkipsAudit(root: string, env: Environment)
    ensures AuditRepository !in Run(DefaultConfig(root), env).phases
    ensures Run(DefaultConfig(root), env).audit.None?
    ensures Run(DefaultConfig(root), env).exitCode == 0 <==>
      && ToCert(env, root).Success?
      && Registry.VerifySigningKeys(env.keys, ToCert(env, root).value, env.readDir(DefaultKeyDirectory)).Success?
  {
  }
}

=== FILE: wrappers.dfy ===
/** Failure-compatible result types used throughout the model: Go's `(value, error)`
    pairs become `Result`, and Go's nil-able values become `Option`. */
module Wrappers {

  /** A value that may be absent (a nil slice, a nil error, a missing map entry). */
  datatype Option<+T> = None | Some(value: T) {

    predicate IsFailure() {
      None?
    }

    function PropagateFailure<U>(): Option<U>
      requires None?
    {
      None
    }

    function Extract(): T
      requires Some?
    {
      value
    }
  }

  /** Either a computed value or the error a Go function would have returned with it. */
  datatype Result<+R, +E> = Success(value: R) | Failure(error: E) {

    predicate IsFailure() {
      Failure?
    }

    function PropagateFailure<U>(): Result<U, E>
      requires Failure?
    {
      Failure(error)
    }

    function Extract(): R
      requires Success?
    {
      value
    }
  }
}
